=== FILE: README.md ===
# RssBot core, modelled in Dafny

RssBot watches a list of RSS feeds and forwards new items to one Telegram
chat. Operators manage the list with chat commands. This project models the
bot's logic as pure functions over immutable values:

- **The polling cycle** (`Poll`). For every feed in the registry, the bot
  captures the feed's watermark (`LastUpdated`) once, before the item loop. It
  forwards every item whose `pubDate` is strictly later than that captured
  value, in source order. Each forwarded item's `pubDate` is compared with the
  feed's current watermark, and raises it when later. After all feeds are
  done, it writes the registry once, and only if some watermark moved. A fetch
  arrives as a `FetchOutcome`. `HttpFail` stands for a non-success status or an
  exception before the item loop. `Items(items, failAt)` stands for the parsed
  items, plus the index of the item that threw, if one did.
- **`StripHTML`** (`Html`). The source replaces the regular expression
  `<.*?>` with the empty string. The model is a left-to-right scan. At a `<`,
  if a `>` comes before the next line feed, everything up to and including the
  first such `>` is dropped. Otherwise the `<` is kept. This matches .NET's
  `.`, which matches any character except `\n`. `Poll.Render` is the
  notification template built from it.
- **The command handler** (`Commands`). One update becomes a new registry
  (`Option<seq<Feed>>`, `None` while no database is loaded) and a trace of `Effects.Event`s. `Write` is a registry write and `Reply` is an
  answer to the chat. Dispatch uses `StartsWith` prefixes in the order `/add`,
  `/remove`, `/list`, then `/help`/`/start`/`/stop`. Anything else is invalid.
  Arguments come from `Split(" ")` (`Text.Split`), so doubled spaces yield empty
  tokens. While no database is loaded, an `/add` or `/remove` with a valid
  token count and every `/list` return silently. Bad token counts, the help
  commands and unknown text still get their replies.
- **The feed record** (`Feeds`): name, url and watermark. The generated GUID
  name and the creation clock reading are parameters (`freshName`, `now`).

Timestamps are integers. `DateTime` comparison is modelled as integer
comparison.

The model follows the code as written:

- Feed names are not checked for uniqueness. A duplicate `/add` appends a second
  feed with the same name.
- A failed send or a bad date aborts the rest of that feed's items. Watermark
  advances already made are kept.
- Items are compared with the watermark captured before the item loop. So an
  item older than an earlier item of the same fetch is still forwarded. The
  resulting watermark equals the maximum over the forwarded items, or is
  unchanged when nothing is forwarded.

## Model

| member | source | states |
|---|---|---|
| Feeds.NewFeed | Models/Feed.cs:5-11 | The constructor stores the url verbatim, uses the generated name and starts the watermark at the creation time. |
| Html.TagEnd | Services/Bot.cs:110 | The lazy `.*?>` match after a `<` ends at the first `>`. It fails if a line feed comes before any `>`. |
| Html.Strip | Services/Bot.cs:110 | The result is a subsequence of the input. A text with no `<` is unchanged. Every line feed is kept (same count). |
| Html.StripHTML | Services/Bot.cs:104-112 | A null input gives the empty string. Otherwise the result is the tag-stripped text: a subsequence of the input, never longer, equal to the input when it has no `<`, and with every line feed kept. |
| Html.StripKeepsText | Services/Bot.cs:110 | Text with no `<` in front of the rest is copied to the output unchanged, and only the rest is stripped. |
| Html.StripDropsTag | Services/Bot.cs:110 | A tag `<x>`, where `x` has no `>` and no line feed, is removed whole, up to its first `>`, and the text before it is kept. |
| Html.StripIsClean | Services/Bot.cs:110 | After stripping, no `<` has a `>` before the next line feed. |
| Html.CleanIsFixed | Services/Bot.cs:110 | A text with no removable tag is returned unchanged. |
| Html.FixedPointsAreClean | Services/Bot.cs:110 | `Strip` leaves a text unchanged exactly when it has no removable tag (both directions). |
| Html.StripIdempotent | Services/Bot.cs:110 | Stripping twice equals stripping once. |
| Poll.Processed | Services/Bot.cs:73-95 | An exception at item k means only the items before k are processed. Without an exception, or with an index past the last item, all items are processed. |
| Poll.Render | Services/Bot.cs:80-83 | The message has exactly two line feeds more than its three fields together. It is at most 9 characters longer than the fields. |
| Poll.Messages | Services/Bot.cs:76-85 | One notification per item, in the items' order, each the item's rendered template. |
| Poll.NewerThan | Services/Bot.cs:73-76 | Reference selection: every item strictly newer than the watermark, each as many times as it occurs (occurrence counts match), none older, in source order (a subsequence). |
| Poll.Latest | Services/Bot.cs:87-89 | Reference maximum: at least the old watermark and every pubDate. It equals the old watermark or one of the pubDates. |
| Poll.LatestOfForwarded | Services/Bot.cs:76-89 | The raised watermark is the maximum over the forwarded items alone. When nothing is forwarded, the watermark is unchanged. |
| Poll.ScanItems | Services/Bot.cs:72-92 | The item loop forwards exactly `NewerThan(items, captured)`. Its final watermark is `Latest(current, items)`. |
| Poll.ProcessFeed | Services/Bot.cs:59-95 | Name and url are kept and the watermark never decreases. An HTTP failure changes nothing and sends nothing. Otherwise the processed prefix gives the messages for its newer items and the watermark becomes its maximum. |
| Poll.Fold | Services/Bot.cs:55-96 | The loop keeps registry order and length, treats each feed independently, sends the per-feed messages concatenated in order, and raises anyChange exactly when some watermark increased. |
| Poll.Cycle | Services/Bot.cs:54-99 | One cycle applies `ProcessFeed` to every feed. anyChange holds exactly when some feed's watermark strictly increased. |
| Poll.Trace | Services/Bot.cs:78-99 | The trace starts with one `Send` per message of the cycle, in order. The registry is written at most once. It writes exactly when anyChange holds. The write is the last event, carries the new registry, and every other event is a notification. |
| Poll.AbortKeepsEarlierAdvances | Services/Bot.cs:73-95 | An exception at item k gives the same feed and messages as a fetch that ended before item k. |
| Poll.FailureContained | Services/Bot.cs:57-96 | A feed's result does not depend on any other feed's fetch outcome. A failed fetch leaves its own feed unchanged. |
| Poll.OutOfOrderStillForwarded | Services/Bot.cs:72-90 | With items newer than the watermark in decreasing pubDate order, both are forwarded and the watermark ends at the larger pubDate. |
| Poll.NewFeedForwardsOnlyLater | Services/Bot.cs:76-88 | A feed created at `now` forwards nothing published at or before `now` and keeps its watermark. |
| Text.Split | Services/Bot.cs:168 | `Split(" ")` returns at least one token and no token contains a space. |
| Text.SplitCount | Services/Bot.cs:168 | There is one more token than there are spaces, so empty tokens count. |
| Text.JoinSplit | Services/Bot.cs:168 | Joining the tokens with single spaces gives back the text. |
| Text.SplitJoin | Services/Bot.cs:168 | Splitting a space-joined list of space-free tokens gives back the list. |
| Commands.Classify | Services/Bot.cs:167-239 | A text is an add command exactly when it starts with `/add`. It is a remove command exactly when it starts with `/remove` but not `/add`, and a list command exactly when it starts with `/list` but with neither earlier prefix. It is unknown exactly when it starts with none of the six prefixes. |
| Commands.FeedFromArgs | Services/Bot.cs:176-182 | The url is the last token. The name is the second token when there are three tokens, otherwise the generated name. The watermark is the creation time. |
| Commands.Add | Services/Bot.cs:167-189 | A token count other than 2 or 3 replies "Invalid arguments" and changes nothing. With no database, nothing happens. Otherwise one feed is appended after the untouched old feeds, and the `Write` of the new registry precedes the reply. |
| Commands.FirstNamed | Services/Bot.cs:200 | Finds the first feed with the name, or reports that none has it. |
| Commands.Remove | Services/Bot.cs:190-213 | A token count other than 2 replies "Invalid arguments". An unknown name replies "Feed not found" with no write and no change. Otherwise only the first feed with that name is removed, the others keep their order, and the `Write` precedes the reply. |
| Commands.ListAppend | Services/Bot.cs:216-219 | The listing of a longer registry extends the listing of its prefix line by line, so feeds appear in registry order. |
| Commands.ListAfterAdd | Services/Bot.cs:214-223 | After an add, the `/list` reply is the old reply followed by the new feed's `"{Name} : {Url} \n\r"` line. |
| Commands.Handle | Services/Bot.cs:158-246 | Non-message updates and null texts do nothing. `/add` and `/remove` texts are handled exactly as `Add` and `Remove` state. Only `/add` and `/remove` change the registry, and every change is written before the reply. At most two events are produced and none is a notification. `/list` and help only reply. Unknown text replies "Invalid command, type /help" and changes nothing. |
| Commands.AddThenRemove | Services/Bot.cs:168-213 | `/add name url` followed by `/remove name` restores the registry when no older feed has that name. |
| Commands.DuplicateNamesAccepted | Services/Bot.cs:176-185 | Adding a name already in the registry still appends a new feed. |
| Commands.DoubleSpaceIsAnExtraToken | Services/Bot.cs:191-197 | `/remove` followed by two spaces and a name gives three tokens, so the reply is "Invalid arguments". |

## Left out

- The Telegram client is left out: `StartReceiving`, `SendTextMessageAsync`, `CloseAsync`, `HandlePollingErrorAsync` and `StopAsync`. Sending is a `Send`/`Reply` event. The chat id a reply goes to and the HTML parse mode are not modelled.
- A send that fails after the message was delivered is not modelled. An exception at an item means that item had no effect.
- `HttpClient`, `XDocument.Parse` and `DateTime.Parse` are left out. They are library I/O and parsing. A fetch is a `FetchOutcome` with already-parsed items and integer timestamps. A `failAt` index past the last item is read as "no exception".
- `LoadDatabase` and `WriteDatabase` (JSON and file I/O) are left out. The registry is a `seq<Feed>` and a write is a `Write` event. The `Database` class is not part of this model.
- The poll loop exits when the database is null. This is not modelled: `Poll.Cycle` is one pass over a loaded registry.
- `BackgroundWorker`, `async`/`await`, `Task.Delay` and the endless repetition of the cycle are left out. So is any interleaving between the cycle and the command handler. Modifying the list while the loop enumerates it would throw outside the per-feed `try`, and that is not modelled either. The source has no locking to verify.
- Environment configuration is left out. `BOT_TOKEN` is not modelled. `CHAT_ID` and `DELAY` are the `Config` parameter, with CHAT_ID as the empty string when unset. A `DELAY` that `int.Parse` rejects is not modelled.
- GUID generation and `DateTime.Now` are the `freshName` and `now` parameters.
- Logging is left out.
- `Commands.Classify`: `StartsWith` is modelled as an ordinal prefix test. The .NET overload used is culture-sensitive, and characters that culture ignores are not modelled.
- `Html.Strip`: characters are Dafny characters, not UTF-16 code units. This makes no difference to a pattern that only inspects `<`, `>` and `\n`.
- `Poll.Render`: the contract states the line structure and a length bound only. The exact template text is the function's definition.
- `Commands.AddedText`, `Commands.RemovedText`, `Commands.Line`, `Commands.Lines` and `Commands.ListText` are the reply templates of Services/Bot.cs lines 188, 212 and 216-219, written out. They have no contract of their own. `Commands.ListAppend` and `Commands.ListAfterAdd` state the listing's order.
- `Commands.HelpText` is the help reply written out. It has no contract of its own, and `Text.IntToString` renders the delay with invariant-culture digits.
- `Program.cs` is ASP.NET hosting and logging setup, with no logic to model.

=== FILE: commands.dfy ===
/** The command handler: one inbound update turns into a registry transition
    and a trace of effects (`Write` before `Reply` whenever the registry changes). */
module Commands {
  import opened Wrappers
  import opened Feeds
  import opened Effects
  import opened Text

  /** An update from the chat platform: a message, whose text may be null, or
      an update of any other kind. */
  datatype Update = Message(text: Option<string>) | OtherUpdate

  /** Environment settings: CHAT_ID (empty when unset) and DELAY in seconds. */
  datatype Config = Config(chatId: string, delay: int)

  /** The registry after the update (None while no database is loaded) and the
      effects, in order. */
  datatype Outcome = Outcome(db: Option<seq<Feed>>, events: seq<Event>)

  datatype Command = AddCommand | RemoveCommand | ListCommand | HelpCommand | UnknownCommand

  const InvalidArguments := "Invalid arguments"
  const NotFound := "Feed not found"
  const InvalidCommand := "Invalid command, type /help"
  const ListHeader := "Feeds : \n\r"

  /** Prefix dispatch, first match wins: `/add`, `/remove`, `/list`, then the
      three help aliases. */
  function Classify(text: string): (c: Command)
    ensures c == AddCommand <==> StartsWith(text, "/add")
    ensures c == RemoveCommand <==> !StartsWith(text, "/add") && StartsWith(text, "/remove")
    ensures c == ListCommand <==> !StartsWith(text, "/add") && !StartsWith(text, "/remove") && StartsWith(text, "/list")
    ensures c == UnknownCommand <==>
      && !StartsWith(text, "/add") && !StartsWith(text, "/remove") && !StartsWith(text, "/list")
      && !StartsWith(text, "/help") && !StartsWith(text, "/start") && !StartsWith(text, "/stop")
  {
    if StartsWith(text, "/add") then AddCommand
    else if StartsWith(text, "/remove") then RemoveCommand
    else if StartsWith(text, "/list") then ListCommand
    else if StartsWith(text, "/help") || StartsWith(text, "/start") || StartsWith(text, "/stop") then HelpCommand
    else UnknownCommand
  }

  function AddedText(f: Feed): string
  {
    "Feed added : " + f.name + " \n\r " + f.url
  }

  function RemovedText(f: Feed): string
  {
    "Feed removed : " + f.name + " \n\r " + f.url
  }

  /** The feed `/add` builds: with three tokens the second is the name and the
      third the address; with two the name is the generated one. */
  function FeedFromArgs(args: seq<string>, freshName: string, now: int): (f: Feed)
    requires |args| == 2 || |args| == 3
    ensures f.url == args[|args| - 1]
    ensures f.name == (if |args| == 3 then args[1] else freshName)
    ensures f.lastUpdated == now
  {
    if |args| == 3 then NewFeed(args[2], freshName, now).(name := args[1])
    else NewFeed(args[1], freshName, now)
  }

  /** `/add [<name>] <url>`. */
  function Add(db: Option<seq<Feed>>, text: string, freshName: string, now: int): (r: Outcome)
    ensures var args := Split(text);
      !(|args| == 2 || |args| == 3) ==> r == Outcome(db, [Reply(InvalidArguments)])
    ensures var args := Split(text);
      (|args| == 2 || |args| == 3) && db.None? ==> r == Outcome(db, [])
    ensures var args := Split(text);
      (|args| == 2 || |args| == 3) && db.Some? ==>
        && r.db.Some?
        && |r.db.value| == |db.value| + 1
        && r.db.value[..|db.value|] == db.value
        && r.db.value[|db.value|] == FeedFromArgs(args, freshName, now)
        && r.events == [Write(r.db.value), Reply(AddedText(r.db.value[|db.value|]))]
  {
    var args := Split(text);
    if !(|args| == 2 || |args| == 3) then Outcome(db, [Reply(InvalidArguments)])
    else
      var f := FeedFromArgs(args, freshName, now);
      match db
      case None => Outcome(db, [])
      case Some(feeds) =>
        var feeds' := feeds + [f];
        assert feeds'[..|feeds|] == feeds;
        Outcome(Some(feeds'), [Write(feeds'), Reply(AddedText(f))])
  }

  /** Index of the first feed called `name`, if any. */
  function FirstNamed(feeds: seq<Feed>, name: string): (r: Option<nat>)
    ensures r.Some? ==> r.value < |feeds| && feeds[r.value].name == name
    ensures r.Some? ==> forall j :: 0 <= j < r.value ==> feeds[j].name != name
    ensures r.None? ==> forall j :: 0 <= j < |feeds| ==> feeds[j].name != name
  {
    if feeds == [] then None
    else if feeds[0].name == name then Some(0)
    else
      match FirstNamed(feeds[1..], name)
      case None => None
      case Some(i) => Some(i + 1)
  }

  /** `/remove <name>`: drops the first feed with that name. */
  function Remove(db: Option<seq<Feed>>, text: string): (r: Outcome)
    ensures var args := Split(text);
      |args| != 2 ==> r == Outcome(db, [Reply(InvalidArguments)])
    ensures var args := Split(text);
      |args| == 2 && db.None? ==> r == Outcome(db, [])
    ensures var args := Split(text);
      |args| == 2 && db.Some? && (forall j :: 0 <= j < |db.value| ==> db.value[j].name != args[1]) ==>
        r == Outcome(db, [Reply(NotFound)])
    ensures var args := Split(text);
      |args| == 2 && db.Some? && (exists j :: 0 <= j < |db.value| && db.value[j].name == args[1]) ==>
        exists i :: 0 <= i < |db.value|
          && db.value[i].name == args[1]
          && (forall j :: 0 <= j < i ==> db.value[j].name != args[1])
          && r.db == Some(db.value[..i] + db.value[i + 1..])
          && r.events == [Write(r.db.value), Reply(RemovedText(db.value[i]))]
  {
    var args := Split(text);
    if |args| != 2 then Outcome(db, [Reply(InvalidArguments)])
    else
      match db
      case None => Outcome(db, [])
      case Some(feeds) =>
        match FirstNamed(feeds, args[1])
        case None => Outcome(db, [Reply(NotFound)])
        case Some(i) =>
          var feeds' := feeds[..i] + feeds[i + 1..];
          Outcome(Some(feeds'), [Write(feeds'), Reply(RemovedText(feeds[i]))])
  }

  function Line(f: Feed): string
  {
    f.name + " : " + f.url + " \n\r"
  }

  /** One line per feed, in registry order. */
  function Lines(feeds: seq<Feed>): string
  {
    if feeds == [] then "" else Line(feeds[0]) + Lines(feeds[1..])
  }

  /** The `/list` reply. */
  function ListText(feeds: seq<Feed>): string
  {
    ListHeader + Lines(feeds)
  }

  /** Listing a longer registry extends the listing of its prefix, so feeds
      appear in registry order. */
  lemma {:induction false} ListAppend(a: seq<Feed>, b: seq<Feed>)
    ensures ListText(a + b) == ListText(a) + Lines(b)
    ensures |ListText(a)| <= |ListText(a + b)|
  {
    LinesAppend(a, b);
  }

  lemma {:induction false} LinesAppend(a: seq<Feed>, b: seq<Feed>)
    ensures Lines(a + b) == Lines(a) + Lines(b)
    decreases |a|
  {
    if a == [] {
      assert a + b == b;
    } else {
      assert (a + b)[1..] == a[1..] + b;
      LinesAppend(a[1..], b);
    }
  }

  function HelpText(cfg: Config): string
  {
    "/add <name> <url> : add a feed \n\r"
    + "/remove <name> : remove a feed \n\r"
    + "/list : list all feeds \n\r"
    + "/help : show this message \n\r"
    + "Chat Id : " + cfg.chatId + " \n\r"
    + "Delay : " + IntToString(cfg.delay) + " \n\r"
  }

  /** The whole handler. `freshName` is the generated GUID text and `now` the
      clock reading a feed created by this update would get. */
  function Handle(db: Option<seq<Feed>>, u: Update, cfg: Config, freshName: string, now: int): (r: Outcome)
    ensures u.OtherUpdate? || u.text.None? ==> r == Outcome(db, [])
    ensures r.db.Some? <==> db.Some?
    ensures |r.events| <= 2
    ensures forall k :: 0 <= k < |r.events| ==> !r.events[k].Send?
    ensures forall k :: 0 <= k < |r.events| && r.events[k].Write? ==>
      && k + 1 < |r.events| && r.events[k + 1].Reply?
      && r.db.Some? && r.events[k].registry == r.db.value
    ensures r.db != db ==>
      && u.Message? && u.text.Some?
      && (Classify(u.text.value) == AddCommand || Classify(u.text.value) == RemoveCommand)
      && |r.events| == 2 && r.events[0].Write?
    ensures u.Message? && u.text.Some? && Classify(u.text.value) == AddCommand ==>
      r == Add(db, u.text.value, freshName, now)
    ensures u.Message? && u.text.Some? && Classify(u.text.value) == RemoveCommand ==>
      r == Remove(db, u.text.value)
    ensures u.Message? && u.text.Some? && Classify(u.text.value) == HelpCommand ==>
      r == Outcome(db, [Reply(HelpText(cfg))])
    ensures u.Message? && u.text.Some? && Classify(u.text.value) == ListCommand ==>
      r == Outcome(db, if db.Some? then [Reply(ListText(db.value))] else [])
    ensures u.Message? && u.text.Some? && Classify(u.text.value) == UnknownCommand ==>
      r == Outcome(db, [Reply(InvalidCommand)])
  {
    match u
    case OtherUpdate => Outcome(db, [])
    case Message(None) => Outcome(db, [])
    case Message(Some(text)) =>
      match Classify(text)
      case AddCommand => Add(db, text, freshName, now)
      case RemoveCommand => Remove(db, text)
      case ListCommand =>
        if db.None? then Outcome(db, []) else Outcome(db, [Reply(ListText(db.value))])
      case HelpCommand => Outcome(db, [Reply(HelpText(cfg))])
      case UnknownCommand => Outcome(db, [Reply(InvalidCommand)])
  }

  lemma AddTokens(name: string, url: string)
    requires ' ' !in name && ' ' !in url
    ensures Split("/add " + name + " " + url) == ["/add", name, url]
  {
    var cmd := "/add";
    assert ' ' !in cmd;
    ThreeTokens(cmd, name, url);
    assert cmd + " " + name + " " + url == "/add " + name + " " + url;
  }

  lemma RemoveTokens(name: string)
    requires ' ' !in name
    ensures Split("/remove " + name) == ["/remove", name]
  {
    SplitSingle(name);
    SplitCons("/remove", name);
    assert "/remove" + " " + name == "/remove " + name;
  }

  /** Removing a name that was just added, when no older feed has that name,
      restores the registry. */
  lemma AddThenRemove(feeds: seq<Feed>, name: string, url: string, cfg: Config, freshName: string, now: int)
    requires ' ' !in name && ' ' !in url
    requires forall j :: 0 <= j < |feeds| ==> feeds[j].name != name
    ensures
      var added := Handle(Some(feeds), Message(Some("/add " + name + " " + url)), cfg, freshName, now);
      && added.db == Some(feeds + [Feed(name, url, now)])
      && Handle(added.db, Message(Some("/remove " + name)), cfg, freshName, now).db == Some(feeds)
  {
    AddTokens(name, url);
    RemoveTokens(name);
    var text := "/remove " + name;
    assert text[..4] == "/rem";
    assert Classify(text) == RemoveCommand;
    var grown := feeds + [Feed(name, url, now)];
    assert grown[|feeds|].name == name;
    assert forall j :: 0 <= j < |feeds| ==> grown[j].name != name;
    assert FirstNamed(grown, name) == Some(|feeds|);
    assert grown[..|feeds|] + grown[|feeds| + 1..] == feeds;
  }

  /** Names are not checked: adding a name already in the registry appends a
      second feed with that name. */
  lemma DuplicateNamesAccepted(feeds: seq<Feed>, i: nat, url: string, cfg: Config, freshName: string, now: int)
    requires i < |feeds|
    requires ' ' !in feeds[i].name && ' ' !in url
    ensures
      var name := feeds[i].name;
      var r := Handle(Some(feeds), Message(Some("/add " + name + " " + url)), cfg, freshName, now);
      r.db == Some(feeds + [Feed(name, url, now)])
  {
    AddTokens(feeds[i].name, url);
    assert (feeds + [Feed(feeds[i].name, url, now)])[..|feeds|] == feeds;
  }

  /** After an add, the listing is the old listing followed by the new feed's line. */
  lemma ListAfterAdd(feeds: seq<Feed>, text: string, freshName: string, now: int)
    requires |Split(text)| == 2 || |Split(text)| == 3
    ensures
      var added := Add(Some(feeds), text, freshName, now).db.value;
      ListText(added) == ListText(feeds) + Line(added[|feeds|])
  {
    var added := Add(Some(feeds), text, freshName, now).db.value;
    assert added == feeds + [added[|feeds|]];
    ListAppend(feeds, [added[|feeds|]]);
    assert [added[|feeds|]][1..] == [];
  }

  /** `Split(" ")` keeps empty tokens: a doubled space makes `/remove` see
      three tokens and refuse. */
  lemma DoubleSpaceIsAnExtraToken(db: Option<seq<Feed>>, name: string, cfg: Config, freshName: string, now: int)
    requires ' ' !in name
    ensures Handle(db, Message(Some("/remove  " + name)), cfg, freshName, now) == Outcome(db, [Reply(InvalidArguments)])
  {
    var t := "/remove  " + name;
    SplitSingle(name);
    SplitCons("", name);
    assert "" + " " + name == " " + name;
    SplitCons("/remove", " " + name);
    assert "/remove" + " " + (" " + name) == t;
    assert t[..4] == "/rem";
  }
}

=== FILE: effects.dfy ===
/** Observable effects of the bot, in the order they happen. */
module Effects {
  import opened Feeds

  datatype Event =
    | Send(text: string)            // a notification to the configured channel
    | Reply(text: string)           // an answer to the chat a command came from
    | Write(registry: seq<Feed>)    // the whole registry written to the database file

  /** Number of registry writes in a trace. */
  function Writes(t: seq<Event>): nat
  {
    if t == [] then 0 else (if t[0].Write? then 1 else 0) + Writes(t[1..])
  }

  lemma {:induction false} WritesAppend(a: seq<Event>, b: seq<Event>)
    ensures Writes(a + b) == Writes(a) + Writes(b)
    decreases |a|
  {
    if a == [] {
      assert a + b == b;
    } else {
      assert (a + b)[1..] == a[1..] + b;
      WritesAppend(a[1..], b);
    }
  }

  /** A trace of notifications alone writes nothing. */
  lemma {:induction false} SendsDoNotWrite(t: seq<Event>)
    requires forall k :: 0 <= k < |t| ==> t[k].Send?
    ensures Writes(t) == 0
    decreases |t|
  {
    if t != [] {
      SendsDoNotWrite(t[1..]);
    }
  }
}

=== FILE: feed.dfy ===
/** The watched-feed record. */
module Feeds {

  /** A watched feed. `lastUpdated` is the watermark: the publication time
      (an integer clock reading) of the newest item already forwarded. */
  datatype Feed = Feed(name: string, url: string, lastUpdated: int)

  /** The feed constructor: `freshName` stands for the generated GUID text and
      `now` for the clock reading taken when the record is created. */
  function NewFeed(url: string, freshName: string, now: int): (f: Feed)
    ensures f.url == url
    ensures f.name == freshName
    ensures f.lastUpdated == now
  {
    Feed(freshName, url, now)
  }
}

=== FILE: html.dfy ===
/** Markup removal applied to every item field before it is forwarded.
    The replacement of the pattern `<.*?>` by the empty string is modelled as a
    left-to-right scan: `.` matches any character except a line feed, and the
    lazy `*?` stops at the first `>`. */
module Html {
  import opened Wrappers
  import opened Sequences

  /** Where the tag opened just before `t` closes: the offset of the first `>`
      in `t`, provided no line feed comes before it. */
  function TagEnd(t: string): (r: Option<nat>)
    ensures r.Some? ==> r.value < |t| && t[r.value] == '>'
    ensures r.Some? ==> forall k :: 0 <= k < r.value ==> t[k] != '>' && t[k] != '\n'
    ensures r.None? ==> forall j :: 0 <= j < |t| && t[j] == '>' ==> '\n' in t[..j]
  {
    if t == [] then None
    else if t[0] == '>' then Some(0)
    else if t[0] == '\n' then None
    else
      match TagEnd(t[1..])
      case None =>
        assert forall j :: 1 <= j < |t| ==> t[1..][..j - 1] == t[1..j];
        None
      case Some(j) => Some(j + 1)
  }

  /** The left-to-right scan itself. It carries no contract, so proofs that
      unfold it do not drag `Strip`'s postconditions along. */
  function Scan(s: string): string
    decreases |s|
  {
    if s == [] then []
    else if s[0] == '<' then
      match TagEnd(s[1..])
      case Some(j) => Scan(s[j + 2..])
      case None => [s[0]] + Scan(s[1..])
    else [s[0]] + Scan(s[1..])
  }

  lemma {:induction false} ScanFacts(s: string)
    ensures IsSubsequence(Scan(s), s)
    ensures '<' !in s ==> Scan(s) == s
    ensures Count(Scan(s), '\n') == Count(s, '\n')
    decreases |s|
  {
    if s == [] {
    } else if s[0] == '<' {
      match TagEnd(s[1..])
      case Some(j) =>
        var rest := Scan(s[j + 2..]);
        ScanFacts(s[j + 2..]);
        SubsequenceOfSuffix(rest, s, j + 2);
        assert s == s[..j + 2] + s[j + 2..];
        CountAppend(s[..j + 2], s[j + 2..], '\n');
        TagHasNoNewline(s, j);
      case None =>
        var rest := Scan(s[1..]);
        ScanFacts(s[1..]);
        assert ([s[0]] + rest)[1..] == rest;
    } else {
      var rest := Scan(s[1..]);
      ScanFacts(s[1..]);
      assert ([s[0]] + rest)[1..] == rest;
      assert '<' !in s ==> '<' !in s[1..];
    }
  }

  /** `StripHTML` on a non-null string. */
  function Strip(s: string): (r: string)
    ensures IsSubsequence(r, s)
    ensures '<' !in s ==> r == s
    ensures Count(r, '\n') == Count(s, '\n')
  {
    ScanFacts(s);
    Scan(s)
  }

  lemma TagHasNoNewline(s: string, j: nat)
    requires s != [] && s[0] == '<' && TagEnd(s[1..]) == Some(j)
    ensures Count(s[..j + 2], '\n') == 0
  {
    var tag := s[..j + 2];
    forall k | 0 <= k < |tag|
      ensures tag[k] != '\n'
    {
      if k > 0 {
        assert tag[k] == s[1..][k - 1];
      }
    }
    CountAbsent(tag, '\n');
  }

  /** `StripHTML(input)`: a null input gives the empty string. */
  function StripHTML(input: Option<string>): (r: string)
    ensures input.None? ==> r == ""
    ensures input.Some? ==> r == Strip(input.value)
    ensures input.Some? ==> |r| <= |input.value| && IsSubsequence(r, input.value)
    ensures input.Some? && '<' !in input.value ==> r == input.value
    ensures input.Some? ==> Count(r, '\n') == Count(input.value, '\n')
  {
    match input
    case None => ""
    case Some(s) =>
      var r := Strip(s);
      SubsequenceLength(r, s);
      r
  }

  /** No tag is left: every `<` has no `>` before the next line feed. */
  ghost predicate Clean(s: string)
    decreases |s|
  {
    s == [] || ((s[0] == '<' ==> TagEnd(s[1..]).None?) && Clean(s[1..]))
  }

  /** A text with no tag closing before its first line feed keeps that
      property through `Strip`. */
  lemma {:induction false} NoTagSurvives(t: string)
    requires TagEnd(t).None?
    ensures TagEnd(Strip(t)).None?
    decreases |t|
  {
    if t != [] && t[0] != '\n' {
      assert t[0] != '>';
      assert TagEnd(t[1..]).None?;
      NoTagSurvives(t[1..]);
      var r := Strip(t[1..]);
      assert Strip(t) == [t[0]] + r;
      assert ([t[0]] + r)[1..] == r;
    }
  }

  lemma {:induction false} StripIsClean(s: string)
    ensures Clean(Strip(s))
    decreases |s|
  {
    if s != [] {
      if s[0] == '<' {
        match TagEnd(s[1..])
        case Some(j) =>
          StripIsClean(s[j + 2..]);
        case None =>
          StripIsClean(s[1..]);
          NoTagSurvives(s[1..]);
          assert ([s[0]] + Strip(s[1..]))[1..] == Strip(s[1..]);
      } else {
        StripIsClean(s[1..]);
        assert ([s[0]] + Strip(s[1..]))[1..] == Strip(s[1..]);
      }
    }
  }

  lemma {:induction false} CleanIsFixed(s: string)
    requires Clean(s)
    ensures Strip(s) == s
    decreases |s|
  {
    if s != [] {
      CleanIsFixed(s[1..]);
      assert [s[0]] + s[1..] == s;
    }
  }

  /** The strings `Strip` leaves alone are exactly the clean ones. */
  lemma FixedPointsAreClean(s: string)
    ensures Strip(s) == s <==> Clean(s)
  {
    if Clean(s) {
      CleanIsFixed(s);
    }
    StripIsClean(s);
  }

  /** A second pass removes nothing. */
  lemma StripIdempotent(s: string)
    ensures Strip(Strip(s)) == Strip(s)
  {
    StripIsClean(s);
    CleanIsFixed(Strip(s));
  }

  /** A character other than `<` is copied to the output. */
  lemma ScanStep(s: string)
    requires s != [] && s[0] != '<'
    ensures Scan(s) == [s[0]] + Scan(s[1..])
  {
  }

  /** At a `<` whose tag closes at offset `j`, the tag is dropped. */
  lemma ScanAtTag(s: string, j: nat)
    requires s != [] && s[0] == '<' && TagEnd(s[1..]) == Some(j)
    ensures Scan(s) == Scan(s[j + 2..])
  {
  }

  lemma {:induction false} ScanKeepsPrefix(s: string, k: nat)
    requires k <= |s| && '<' !in s[..k]
    ensures Scan(s) == s[..k] + Scan(s[k..])
    decreases k
  {
    if k == 0 {
      assert s[k..] == s;
    } else {
      var t := s[1..];
      assert s[0] in s[..k];
      ScanStep(s);
      assert t[..k - 1] == s[1..k];
      assert '<' !in t[..k - 1];
      ScanKeepsPrefix(t, k - 1);
      assert t[k - 1..] == s[k..];
      assert s[..k] == [s[0]] + t[..k - 1];
    }
  }

  /** The lazy match after a `<` ends at the first `>` when no line feed
      comes before it. */
  lemma {:induction false} TagEndOf(x: string, b: string)
    requires '>' !in x && '\n' !in x
    ensures TagEnd(x + ">" + b) == Some(|x|)
    decreases |x|
  {
    var t := x + ">" + b;
    if x == [] {
      assert t[0] == '>';
    } else {
      assert t[0] == x[0];
      assert t[1..] == x[1..] + ">" + b;
      TagEndOf(x[1..], b);
    }
  }

  /** Text with no `<` is copied to the output as it is, and only what
      follows it is stripped. */
  lemma StripKeepsText(a: string, b: string)
    requires '<' !in a
    ensures Strip(a + b) == a + Strip(b)
  {
    var all := a + b;
    assert all[..|a|] == a && all[|a|..] == b;
    ScanKeepsPrefix(all, |a|);
  }

  /** A tag `<x>` is dropped whole, up to its first `>`, and the text before
      it is kept. */
  lemma StripDropsTag(a: string, x: string, b: string)
    requires '<' !in a && '>' !in x && '\n' !in x
    ensures Strip(a + "<" + x + ">" + b) == a + Strip(b)
  {
    var tag := "<" + x + ">" + b;
    assert Scan(tag) == Scan(b) by {
      assert tag[1..] == x + ">" + b;
      TagEndOf(x, b);
      ScanAtTag(tag, |x|);
      assert tag[|x| + 2..] == b;
    }
    assert a + "<" + x + ">" + b == a + tag;
    StripKeepsText(a, tag);
  }
}

=== FILE: poll.dfy ===
/** One cycle of the polling loop: for every feed, forward the items newer than
    its watermark, raise the watermark, and write the registry once at the end
    if any watermark moved. Fetching, XML parsing and date parsing happen
    outside the model: a feed's fetch arrives as a `FetchOutcome`. */
module Poll {
  import opened Wrappers
  import opened Sequences
  import opened Feeds
  import opened Effects
  import Html

  /** A parsed `<item>`: its text fields and its `pubDate` as a clock reading. */
  datatype Item = Item(title: string, description: string, link: string, pubDate: int)

  /** What fetching one feed yields. `HttpFail` is a non-success status, or an
      exception before the item loop starts. `Items(items, Some(k))` means the
      item at index `k` threw (unparsable date, missing element, failed send):
      that item has no effect and the rest of the feed is skipped. */
  datatype FetchOutcome =
    | HttpFail
    | Items(items: seq<Item>, failAt: Option<nat>)

  /** The items the loop gets through before the exception, if any. */
  function Processed(items: seq<Item>, failAt: Option<nat>): (r: seq<Item>)
    ensures |r| <= |items| && r == items[..|r|]
    ensures failAt.None? || failAt.value >= |items| ==> r == items
    ensures failAt.Some? && failAt.value < |items| ==> |r| == failAt.value
  {
    if failAt.Some? && failAt.value < |items| then items[..failAt.value] else items
  }

  /** The notification text for one item: bold title, description and link,
      each with its markup stripped, on three lines. */
  function Render(it: Item): (r: string)
    ensures Count(r, '\n') == 2 + Count(it.title, '\n') + Count(it.description, '\n') + Count(it.link, '\n')
    ensures |r| <= 9 + |it.title| + |it.description| + |it.link|
  {
    var t := Html.Strip(it.title);
    var d := Html.Strip(it.description);
    var l := Html.Strip(it.link);
    SubsequenceLength(t, it.title);
    SubsequenceLength(d, it.description);
    SubsequenceLength(l, it.link);
    CountAppend("<b>" + t + "</b>" + "\n" + d + "\n", l, '\n');
    CountAppend("<b>" + t + "</b>" + "\n" + d, "\n", '\n');
    CountAppend("<b>" + t + "</b>" + "\n", d, '\n');
    CountAppend("<b>" + t + "</b>", "\n", '\n');
    CountAppend("<b>" + t, "</b>", '\n');
    CountAppend("<b>", t, '\n');
    "<b>" + t + "</b>" + "\n" + d + "\n" + l
  }

  /** One notification per item, in the items' order. */
  function Messages(items: seq<Item>): (ms: seq<string>)
    ensures |ms| == |items|
    ensures forall i :: 0 <= i < |items| ==> ms[i] == Render(items[i])
  {
    seq(|items|, i requires 0 <= i < |items| => Render(items[i]))
  }

  /** Reference definition: the items published strictly after `w`, in source order. */
  function NewerThan(items: seq<Item>, w: int): (r: seq<Item>)
    ensures forall x :: x in r ==> x in items && x.pubDate > w
    ensures forall i :: 0 <= i < |items| && items[i].pubDate > w ==> items[i] in r
    ensures forall x :: Count(r, x) == (if x.pubDate > w then Count(items, x) else 0)
    ensures IsSubsequence(r, items)
  {
    if items == [] then []
    else
      var rest := NewerThan(items[1..], w);
      if items[0].pubDate > w then
        assert ([items[0]] + rest)[1..] == rest;
        [items[0]] + rest
      else
        rest
  }

  function Max(a: int, b: int): int
  {
    if a >= b then a else b
  }

  /** Reference definition: the larger of `w` and every item's `pubDate`. */
  function Latest(w: int, items: seq<Item>): (r: int)
    ensures r >= w
    ensures forall i :: 0 <= i < |items| ==> r >= items[i].pubDate
    ensures r == w || exists i :: 0 <= i < |items| && r == items[i].pubDate
  {
    if items == [] then w
    else
      var rest := Latest(w, items[1..]);
      assert forall i :: 1 <= i < |items| ==> items[i] == items[1..][i - 1];
      Max(items[0].pubDate, rest)
  }

  lemma {:induction false} LatestRaise(a: int, b: int, items: seq<Item>)
    ensures Latest(Max(a, b), items) == Max(b, Latest(a, items))
    decreases |items|
  {
    if items != [] {
      LatestRaise(a, b, items[1..]);
    }
  }

  /** The watermark a feed ends at is the maximum over the forwarded items
      alone, or the old watermark when nothing is forwarded. */
  lemma {:induction false} LatestOfForwarded(w: int, items: seq<Item>)
    ensures Latest(w, items) == Latest(w, NewerThan(items, w))
    ensures NewerThan(items, w) == [] ==> Latest(w, items) == w
    decreases |items|
  {
    if items != [] {
      LatestOfForwarded(w, items[1..]);
    }
  }

  datatype Scan = Scan(forwarded: seq<Item>, watermark: int)

  /** The item loop of one feed. `captured` is the watermark read before the
      loop and is what every item is compared with; `current` is the feed's
      watermark as the loop has raised it so far. */
  function ScanItems(captured: int, current: int, items: seq<Item>): (r: Scan)
    requires captured <= current
    ensures r.forwarded == NewerThan(items, captured)
    ensures r.watermark == Latest(current, items)
    decreases |items|
  {
    if items == [] then Scan([], current)
    else
      var it := items[0];
      var raised := if it.pubDate > captured && it.pubDate > current then it.pubDate else current;
      var rest := ScanItems(captured, raised, items[1..]);
      LatestRaise(current, it.pubDate, items[1..]);
      Scan((if it.pubDate > captured then [it] else []) + rest.forwarded, rest.watermark)
  }

  datatype FeedStep = FeedStep(feed: Feed, sent: seq<string>)

  /** Everything one feed goes through in a cycle. */
  function ProcessFeed(f: Feed, o: FetchOutcome): (r: FeedStep)
    ensures r.feed.name == f.name && r.feed.url == f.url
    ensures r.feed.lastUpdated >= f.lastUpdated
    ensures o.HttpFail? ==> r == FeedStep(f, [])
    ensures o.Items? ==>
      var done := Processed(o.items, o.failAt);
      && r.sent == Messages(NewerThan(done, f.lastUpdated))
      && r.feed.lastUpdated == Latest(f.lastUpdated, done)
  {
    match o
    case HttpFail => FeedStep(f, [])
    case Items(items, failAt) =>
      var scan := ScanItems(f.lastUpdated, f.lastUpdated, Processed(items, failAt));
      FeedStep(f.(lastUpdated := scan.watermark), Messages(scan.forwarded))
  }

  datatype CycleResult = CycleResult(feeds: seq<Feed>, sent: seq<string>, anyChange: bool)

  /** The notifications of each feed, feed by feed. */
  function SentPerFeed(step: (Feed, FetchOutcome) -> FeedStep, feeds: seq<Feed>, outcomes: seq<FetchOutcome>): (r: seq<seq<string>>)
    requires |outcomes| == |feeds|
    ensures |r| == |feeds|
    ensures forall i :: 0 <= i < |feeds| ==> r[i] == step(feeds[i], outcomes[i]).sent
  {
    seq(|feeds|, i requires 0 <= i < |feeds| => step(feeds[i], outcomes[i]).sent)
  }

  /** The loop over the registry, feeds in registry order, for a given
      per-feed step; `outcomes[i]` is what fetching `feeds[i]` yielded. */
  function Fold(step: (Feed, FetchOutcome) -> FeedStep, feeds: seq<Feed>, outcomes: seq<FetchOutcome>): (r: CycleResult)
    requires |outcomes| == |feeds|
    ensures |r.feeds| == |feeds|
    ensures forall i :: 0 <= i < |feeds| ==> r.feeds[i] == step(feeds[i], outcomes[i]).feed
    ensures r.sent == Concat(SentPerFeed(step, feeds, outcomes))
    ensures r.anyChange <==> exists i :: 0 <= i < |feeds| && r.feeds[i].lastUpdated > feeds[i].lastUpdated
    decreases |feeds|
  {
    if feeds == [] then CycleResult([], [], false)
    else
      var first := step(feeds[0], outcomes[0]);
      var rest := Fold(step, feeds[1..], outcomes[1..]);
      var r := CycleResult([first.feed] + rest.feeds, first.sent + rest.sent,
                           first.feed.lastUpdated > feeds[0].lastUpdated || rest.anyChange);
      assert SentPerFeed(step, feeds, outcomes)[1..] == SentPerFeed(step, feeds[1..], outcomes[1..]);
      assert forall i :: 1 <= i < |feeds| ==> r.feeds[i] == rest.feeds[i - 1];
      FoldChange(feeds, r.feeds, rest.feeds, first.feed, rest.anyChange);
      r
  }

  /** The induction step for the change flag of `Fold`. */
  lemma FoldChange(feeds: seq<Feed>, after: seq<Feed>, restAfter: seq<Feed>, first: Feed, restChanged: bool)
    requires |feeds| > 0 && after == [first] + restAfter && |restAfter| == |feeds| - 1
    requires restChanged <==> exists i :: 0 <= i < |feeds| - 1 && restAfter[i].lastUpdated > feeds[1..][i].lastUpdated
    ensures (first.lastUpdated > feeds[0].lastUpdated || restChanged) <==>
      exists i :: 0 <= i < |feeds| && after[i].lastUpdated > feeds[i].lastUpdated
  {
    if restChanged {
      var i :| 0 <= i < |feeds| - 1 && restAfter[i].lastUpdated > feeds[1..][i].lastUpdated;
      assert after[i + 1].lastUpdated > feeds[i + 1].lastUpdated;
    }
    if exists i :: 0 <= i < |feeds| && after[i].lastUpdated > feeds[i].lastUpdated {
      var i :| 0 <= i < |feeds| && after[i].lastUpdated > feeds[i].lastUpdated;
      if i > 0 {
        assert restAfter[i - 1].lastUpdated > feeds[1..][i - 1].lastUpdated;
      }
    }
  }

  /** One cycle of the polling loop. */
  function Cycle(feeds: seq<Feed>, outcomes: seq<FetchOutcome>): (r: CycleResult)
    requires |outcomes| == |feeds|
    ensures |r.feeds| == |feeds|
    ensures forall i :: 0 <= i < |feeds| ==> r.feeds[i] == ProcessFeed(feeds[i], outcomes[i]).feed
    ensures r.sent == Concat(SentPerFeed(ProcessFeed, feeds, outcomes))
    ensures r.anyChange <==> exists i :: 0 <= i < |feeds| && r.feeds[i].lastUpdated > feeds[i].lastUpdated
  {
    Fold(ProcessFeed, feeds, outcomes)
  }

  /** The cycle's observable effects: one notification per forwarded item, then
      the registry write when some watermark moved. */
  function Trace(r: CycleResult): (t: seq<Event>)
    ensures |t| == |r.sent| + (if r.anyChange then 1 else 0)
    ensures forall k :: 0 <= k < |r.sent| ==> t[k] == Send(r.sent[k])
    ensures Writes(t) <= 1
    ensures Writes(t) == 1 <==> r.anyChange
    ensures forall k :: 0 <= k < |t| && t[k].Write? ==> k == |t| - 1 && t[k].registry == r.feeds
    ensures forall k :: 0 <= k < |t| && !t[k].Write? ==> t[k].Send?
  {
    var sends := seq(|r.sent|, i requires 0 <= i < |r.sent| => Send(r.sent[i]));
    var tail := if r.anyChange then [Write(r.feeds)] else [];
    SendsDoNotWrite(sends);
    WritesAppend(sends, tail);
    sends + tail
  }

  /** An exception at item `k` leaves the feed exactly as if the fetch had
      ended before item `k`: earlier advances and notifications are kept. */
  lemma AbortKeepsEarlierAdvances(f: Feed, items: seq<Item>, k: nat)
    requires k < |items|
    ensures ProcessFeed(f, Items(items, Some(k))) == ProcessFeed(f, Items(items[..k], None))
  {
  }

  /** What happens to one feed does not depend on what any other feed's fetch
      yielded; a failed fetch leaves its own feed untouched. */
  lemma FailureContained(feeds: seq<Feed>, o1: seq<FetchOutcome>, o2: seq<FetchOutcome>, j: nat)
    requires |o1| == |feeds| && |o2| == |feeds| && j < |feeds|
    requires forall i :: 0 <= i < |feeds| && i != j ==> o1[i] == o2[i]
    ensures forall i :: 0 <= i < |feeds| && i != j ==> Cycle(feeds, o1).feeds[i] == Cycle(feeds, o2).feeds[i]
    ensures o1[j].HttpFail? ==> Cycle(feeds, o1).feeds[j] == feeds[j]
  {
  }

  /** The comparison uses the watermark captured before the loop, so an item
      older than an earlier item of the same fetch is still forwarded. */
  lemma OutOfOrderStillForwarded(f: Feed, a: Item, b: Item)
    requires f.lastUpdated < b.pubDate < a.pubDate
    ensures ProcessFeed(f, Items([a, b], None)) == FeedStep(f.(lastUpdated := a.pubDate), [Render(a), Render(b)])
  {
    assert [a, b][1..] == [b];
    assert NewerThan([b], f.lastUpdated) == [b];
    assert NewerThan([a, b], f.lastUpdated) == [a, b];
    assert Latest(f.lastUpdated, [a, b]) == a.pubDate;
    assert Messages([a, b]) == [Render(a), Render(b)];
  }

  /** A newly added feed forwards nothing published at or before its creation. */
  lemma NewFeedForwardsOnlyLater(url: string, name: string, now: int, o: FetchOutcome)
    requires o.Items?
    requires forall i :: 0 <= i < |o.items| ==> o.items[i].pubDate <= now
    ensures ProcessFeed(NewFeed(url, name, now), o) == FeedStep(NewFeed(url, name, now), [])
  {
  }
}

=== FILE: sequences.dfy ===
/** Generic facts about sequences used by the string and feed models. */
module Sequences {

  /** `a` can be obtained from `b` by deleting elements (order is kept). */
  predicate IsSubsequence<T(==)>(a: seq<T>, b: seq<T>)
    decreases |b|
  {
    if a == [] then true
    else if b == [] then false
    else (a[0] == b[0] && IsSubsequence(a[1..], b[1..])) || IsSubsequence(a, b[1..])
  }

  /** Number of occurrences of `x` in `s`. */
  function Count<T(==)>(s: seq<T>, x: T): nat
  {
    if s == [] then 0 else (if s[0] == x then 1 else 0) + Count(s[1..], x)
  }

  /** Concatenation of a sequence of sequences, in order. */
  function Concat<T>(ss: seq<seq<T>>): seq<T>
  {
    if ss == [] then [] else ss[0] + Concat(ss[1..])
  }

  lemma {:induction false} SubsequenceLength<T>(a: seq<T>, b: seq<T>)
    requires IsSubsequence(a, b)
    ensures |a| <= |b|
    decreases |b|
  {
    if a != [] {
      if a[0] == b[0] && IsSubsequence(a[1..], b[1..]) {
        SubsequenceLength(a[1..], b[1..]);
      } else {
        SubsequenceLength(a, b[1..]);
      }
    }
  }

  lemma {:induction false} SubsequenceOfSuffix<T>(a: seq<T>, b: seq<T>, k: nat)
    requires k <= |b|
    requires IsSubsequence(a, b[k..])
    ensures IsSubsequence(a, b)
    decreases k
  {
    if k > 0 && a != [] {
      assert b[k..] == b[1..][k - 1..];
      SubsequenceOfSuffix(a, b[1..], k - 1);
    } else if k > 0 {
    } else {
      assert b[k..] == b;
    }
  }

  lemma {:induction false} CountAppend<T>(a: seq<T>, b: seq<T>, x: T)
    ensures Count(a + b, x) == Count(a, x) + Count(b, x)
    decreases |a|
  {
    if a == [] {
      assert a + b == b;
    } else {
      assert (a + b)[1..] == a[1..] + b;
      CountAppend(a[1..], b, x);
    }
  }

  lemma {:induction false} CountAbsent<T>(s: seq<T>, x: T)
    requires forall i :: 0 <= i < |s| ==> s[i] != x
    ensures Count(s, x) == 0
    decreases |s|
  {
    if s != [] {
      CountAbsent(s[1..], x);
    }
  }
}

=== FILE: text.dfy ===
/** The string operations the command handler relies on. */
module Text {
  import opened Sequences

  /** Ordinal `text.StartsWith(prefix)`. */
  predicate StartsWith(text: string, prefix: string)
  {
    |prefix| <= |text| && text[..|prefix|] == prefix
  }

  /** `text.Split(" ")`: every single space separates two tokens, so adjacent,
      leading and trailing spaces give empty tokens. */
  function Split(s: string): (r: seq<string>)
    ensures |r| >= 1
    ensures forall i :: 0 <= i < |r| ==> ' ' !in r[i]
    decreases |s|
  {
    if s == [] then [""]
    else
      var rest := Split(s[1..]);
      if s[0] == ' ' then [""] + rest
      else
        var r := [[s[0]] + rest[0]] + rest[1..];
        assert forall i :: 1 <= i < |r| ==> r[i] == rest[i];
        r
  }

  /** The tokens put back together with single spaces. */
  function Join(ts: seq<string>): string
    requires |ts| >= 1
  {
    if |ts| == 1 then ts[0] else ts[0] + " " + Join(ts[1..])
  }

  /** One more token than there are spaces. */
  lemma {:induction false} SplitCount(s: string)
    ensures |Split(s)| == Count(s, ' ') + 1
    decreases |s|
  {
    if s != [] {
      SplitCount(s[1..]);
    }
  }

  /** Joining the tokens gives back the text. */
  lemma {:induction false} JoinSplit(s: string)
    ensures Join(Split(s)) == s
    decreases |s|
  {
    if s != [] {
      JoinSplit(s[1..]);
      var rest := Split(s[1..]);
      var r := Split(s);
      if s[0] == ' ' {
        assert r == [""] + rest;
        assert r[1..] == rest;
      } else {
        assert r == [[s[0]] + rest[0]] + rest[1..];
        if |rest| > 1 {
          assert r[1..] == rest[1..];
          assert Join(rest) == rest[0] + " " + Join(rest[1..]);
        }
      }
    }
  }

  lemma {:induction false} SplitWord(w: string, tail: string)
    requires ' ' !in w
    ensures Split(w + tail) == [w + Split(tail)[0]] + Split(tail)[1..]
    decreases |w|
  {
    if w == [] {
      var r := Split(tail);
      assert w + tail == tail;
      assert w + r[0] == r[0];
      assert [r[0]] + r[1..] == r;
    } else {
      assert (w + tail)[1..] == w[1..] + tail;
      SplitWord(w[1..], tail);
      assert [w[0]] + (w[1..] + Split(tail)[0]) == w + Split(tail)[0];
    }
  }

  /** A word with no space is a single token. */
  lemma SplitSingle(w: string)
    requires ' ' !in w
    ensures Split(w) == [w]
  {
    SplitWord(w, "");
    assert w + "" == w;
  }

  /** A word with no space followed by a space is the first token. */
  lemma SplitCons(w: string, rest: string)
    requires ' ' !in w
    ensures Split(w + " " + rest) == [w] + Split(rest)
  {
    assert Split(" " + rest) == [""] + Split(rest) by {
      assert (" " + rest)[1..] == rest;
    }
    SplitWord(w, " " + rest);
    assert w + " " + rest == w + (" " + rest);
    assert w + "" == w;
    assert ([""] + Split(rest))[1..] == Split(rest);
  }

  lemma ThreeTokens(a: string, b: string, c: string)
    requires ' ' !in a && ' ' !in b && ' ' !in c
    ensures Split(a + " " + b + " " + c) == [a, b, c]
  {
    SplitSingle(c);
    SplitCons(b, c);
    SplitCons(a, b + " " + c);
    assert a + " " + (b + " " + c) == a + " " + b + " " + c;
  }

  /** Splitting undoes joining when no token holds a space. */
  lemma {:induction false} SplitJoin(ts: seq<string>)
    requires |ts| >= 1
    requires forall i :: 0 <= i < |ts| ==> ' ' !in ts[i]
    ensures Split(Join(ts)) == ts
    decreases |ts|
  {
    if |ts| == 1 {
      SplitSingle(ts[0]);
    } else {
      SplitJoin(ts[1..]);
      SplitCons(ts[0], Join(ts[1..]));
      assert [ts[0]] + ts[1..] == ts;
    }
  }

  function Digit(d: nat): char
    requires d < 10
  {
    "0123456789"[d]
  }

  function NatToString(n: nat): string
    decreases n
  {
    if n < 10 then [Digit(n)] else NatToString(n / 10) + [Digit(n % 10)]
  }

  /** Decimal rendering of an integer, as string interpolation gives it. */
  function IntToString(i: int): string
  {
    if i < 0 then "-" + NatToString(-i) else NatToString(i)
  }
}

=== FILE: wrappers.dfy ===
/** Optional values: the model's stand-in for a C# `null`. */
module Wrappers {

  datatype Option<+T> = None | Some(value: T)
}
